=== FILE: README.md ===
# pkcs15-crypt, modelled in Dafny

`pkcs15-crypt` is OpenSC's command-line tool that signs or deciphers a file
with a private key stored on a PKCS #15 smart card. This project models the
tool's control flow:

1. The tool counts the actions on the command line.
2. It opens a session: it establishes a context, checks the reader index,
   checks that a card is present, then connects, locks and binds the PKCS #15
   layer.
3. It resolves the private key: the one `--key` names, or else the first one
   enumerated.
4. It obtains the PIN guarding the key, from the command line or the prompt
   loop, and has the card verify it.
5. It deciphers and/or signs. Each operation runs either on the card
   ("native" keys) or in software, after the key material has been read back
   from the card.
6. It releases what it acquired, and exits with 0, 1, 2, 3 or 5.

None of the collaborators is modelled:

- the smart-card library;
- the software crypto library;
- the terminal;
- the file system.

An `Env` value holds each collaborator's scripted answers. Every stage is a
pure function that returns an exit code or status, together with the trace of
collaborator calls it made (`Step(code, calls)`). The properties are stated
over that trace: what is released and in what order, what may be called
before the PIN was verified, and which call each operation makes.

Files:

- `card.dfy` (module `Card`): the values exchanged with the card library, the
  call trace, and the library lookups the tool relies on.
- `pin.dfy` (module `Pin`): `get_pin` and its prompt loop.
- `extract.dfy` (module `Extract`): `extract_key`.
- `crypt.dfy` (module `Crypt`): `sign_ext`, `sign`, `decipher_ext`, `decipher`.
- `pipeline.dfy` (module `Pipeline`): `main`.
- `lemmas.dfy` (module `PipelineLemmas`): properties of whole runs of `main`.

The model keeps these behaviours of the code as written:

- A missing card returns exit 3 at once, without releasing the context.
- After a failed lock, the card is still unlocked and disconnected.
- Signing refuses to run without an output file; deciphering writes to
  standard output instead.
- The status of writing the result never changes the exit code.
- `--key` counts as an action, so `--key` alone opens the session, verifies
  the PIN and exits 0.
- Signing and deciphering are not mutually exclusive: both may be
  requested. Deciphering runs first, and if it fails, signing is skipped.
- A key read that demands a passphrase is retried once, with the tool's
  built-in passphrase rather than one asked from the user. The interactive
  passphrase prompt after it is never reached.
- The PIN's upper length bound is the PIN object's stored length, not its
  maximum length. PIN lengths are counted in bytes, as `strlen` counts them.
- For an RSA key with no hash flag, an input that is neither 16 nor 20 bytes
  long makes `sign_ext` fail with invalid arguments, so the tool exits 1, not
  2 (the usage exit).

## Model

| member | source | states |
|---|---|---|
| Pin.Prompt | src/tools/pkcs15-crypt.c:96-105 | a PIN the prompt loop returns is a non-empty answer typed by the user whose byte length lies between the PIN object's minimum and stored length |
| Pin.GetPin | src/tools/pkcs15-crypt.c:88-106 | a PIN given on the command line is used unchanged, without any length check; otherwise the result is exactly what the prompt loop gives: a non-empty PIN whose byte length is in range, or nothing (cancelled) |
| Pin.PromptTakesFirstInRange | src/tools/pkcs15-crypt.c:97-104 | when every earlier answer was rejected, the first non-empty in-range answer is the PIN |
| Pin.PromptCancelsOnEmpty | src/tools/pkcs15-crypt.c:97-100 | an empty answer, or the end of input, after rejected answers only cancels the prompt |
| Pin.PromptReturnsAfterRejections | src/tools/pkcs15-crypt.c:101-104 | the returned PIN is some answer all of whose predecessors were rejected, so no valid answer is skipped over |
| Pin.GetPinTakesFirstInRange | src/tools/pkcs15-crypt.c:94-104 | without a PIN on the command line, get_pin returns the first non-empty in-range answer when every earlier answer was rejected |
| Pin.GetPinCancelsOnEmpty | src/tools/pkcs15-crypt.c:94-100 | without a PIN on the command line, an empty answer, or the end of input, after rejected answers only makes get_pin return nothing |
| Card.FindKeyById | src/tools/pkcs15-crypt.c:503-513 | the private-key lookup finds a key carrying the requested id, and finds none exactly when no key carries it |
| Card.FindPinByAuthId | src/tools/pkcs15-crypt.c:514-521 | the PIN lookup finds a PIN object with the key's authentication id, and finds none exactly when no PIN object has it |
| Card.ReadInputCount | src/tools/pkcs15-crypt.c:108-125 | reading the input gives -1 exactly when the file cannot be opened. Otherwise it gives the file's size, or exactly 1024 (the buffer size) for a larger file |
| Card.WriteStatus | src/tools/pkcs15-crypt.c:127-149 | writing gives 0 or -1, and -1 exactly when a named output file cannot be opened; standard output always succeeds |
| Extract.ReadLoop | src/tools/pkcs15-crypt.c:159-174 | the key is read first without a passphrase, and a second time with the built-in passphrase only if the first read demanded one. The result is the answer of the last read made, except that a second passphrase demand becomes an internal error, so a passphrase demand never escapes |
| Extract.ExtractKey | src/tools/pkcs15-crypt.c:153-229 | extraction starts with a passphrase-less read and only reads the private key, looks up the public key by the private key's own id, right after the reads, and reads it exactly when the lookup found it. A failed read's error is returned. Material that is returned has the algorithm read back, with the public parameters merged exactly for a DSA object. For non-DSA objects extraction succeeds exactly when the read succeeded with a supported algorithm, and an unsupported one is not-supported. After a successful read, a DSA object succeeds exactly when its public key is found and readable. A missing public key gives object-not-found, and an unreadable one gives the read's error |
| Crypt.SelectHash | src/tools/pkcs15-crypt.c:241-258 | --md5 wins over --sha-1. Without either flag a hash is chosen exactly when some hash's digest length equals the input length, and then its digest length is the input length; otherwise the error is invalid arguments |
| Crypt.PrimitiveResult | src/tools/pkcs15-crypt.c:259-272 | a software signer's status of 0 or less, and only that, becomes an internal error; a positive status yields the signer's output length |
| Crypt.SignExt | src/tools/pkcs15-crypt.c:231-275 | software signing makes extract_key's calls followed by at most the signer call. It returns the extraction's error, with no signer call, when extraction failed. An RSA key signs with the selected hash over the whole input, or fails with the selection's error; a DSA key always signs with SHA-1. A signer status of 0 or less becomes an internal error, and a positive one returns the signer's output length. Any other key type yields the full buffer length |
| Crypt.SignStep | src/tools/pkcs15-crypt.c:303-315 | a native key signs on the card with every crypt flag and the input length, and the result is the card's answer; for an extractable key the result and the calls are exactly those of software signing, which start with a key read and never ask the card to sign |
| Crypt.Sign | src/tools/pkcs15-crypt.c:278-323 | the exit code of sign is 0, 1 or 2, and every call it makes reads the input, uses the key or writes the result |
| Crypt.SignChecksArguments | src/tools/pkcs15-crypt.c:284-302 | a missing input or output file gives exit 2 with no call. Otherwise the input is read first, and an unreadable input, or an unpadded RSA input whose length is not the modulus length in bytes, gives exit 2 after that read |
| Crypt.SignOutcome | src/tools/pkcs15-crypt.c:303-322 | once the checks pass, the calls are the input read, then the chosen path's calls, then, only if the path succeeded, the write of its result length. Exit 1 happens exactly when the path failed and exit 0 exactly when it succeeded, and a native key's result is the card's signature length. Native signing reads no key material; extracted signing never asks the card |
| Crypt.UnhashedInputFailsSign | src/tools/pkcs15-crypt.c:241-258 | an RSA key on the extracted path without --md5 or --sha-1, given an admitted input that is neither 16 nor 20 bytes long, makes sign exit 1 without calling any signer |
| Crypt.DecipherExt | src/tools/pkcs15-crypt.c:326-349 | software decryption makes extract_key's calls followed by at most the decryption call. It returns the extraction's error when extraction failed. For an RSA key it ends with the RSA decryption: a positive status is returned as the plaintext length, and 0 or less becomes an internal error. Other key types are not supported |
| Crypt.DecipherStep | src/tools/pkcs15-crypt.c:365-379 | a native key deciphers on the card with the PKCS #1 padding flag only; for an extractable key the result and the calls are exactly those of software decryption, which start with a key read and never ask the card |
| Crypt.Decipher | src/tools/pkcs15-crypt.c:352-388 | the exit code of decipher is 0, 1 or 2, and it makes crypto calls only, none of which signs |
| Crypt.DecipherChecksArguments | src/tools/pkcs15-crypt.c:357-363 | a missing input file gives exit 2 with no call, and an unreadable one gives exit 2 after the read; no output file is required |
| Crypt.DecipherOutcome | src/tools/pkcs15-crypt.c:365-387 | once the input is read, the calls are the input read, then the chosen path's calls, then, only if the path succeeded, the write of its result length. Exit 1 happens exactly when the path failed and exit 0 exactly when it succeeded, and a native key's result is the card's plaintext length. The native and extracted paths never mix |
| Crypt.WriteStatusIgnored | src/tools/pkcs15-crypt.c:316-322 | whether the output file can be written never changes the exit code of sign, nor of decipher (lines 381-387) |
| Crypt.OutputRequiredOnlyForSign | src/tools/pkcs15-crypt.c:284-291 | with an input and no output file, sign exits 2 without a call, while a native decipher the card performs succeeds |
| Pipeline.KeyId | src/tools/pkcs15-crypt.c:415-418 | the key id is absent exactly when no --key was given; otherwise it is the id of the last --key given |
| Pipeline.LastKeyIndex | src/tools/pkcs15-crypt.c:415-418 | the position found holds a --key with no --key after it, and there is none exactly when no --key was given |
| Pipeline.Teardown | src/tools/pkcs15-crypt.c:547-557 | the teardown makes release calls only |
| Pipeline.Enumerate | src/tools/pkcs15-crypt.c:495-502 | the enumeration returns the card's first private keys: all of them when there are fewer than 32, and otherwise exactly 32; it is empty only when the card has none |
| Pipeline.ResolveKey | src/tools/pkcs15-crypt.c:495-513 | a failed or empty enumeration stops with 1. Without --key the first key is used. With --key the run stops with 2 exactly when no key has that id, and otherwise goes on with a key carrying it; the calls with --key are exactly the enumeration and the lookup of that id |
| Pipeline.Authenticate | src/tools/pkcs15-crypt.c:514-536 | a key without an authentication id needs nothing. A missing PIN object gives 1, and a cancelled prompt gives 5. An obtained PIN is sent to the card for verification, and the result is 5 if the card rejects it and 0 if it accepts it. A verified PIN is the one given on the command line, or one in range for a matching PIN object |
| Pipeline.Dispatch | src/tools/pkcs15-crypt.c:537-546 | with no operation requested nothing is called, and a lone decipher or a lone sign is exactly that operation. With both, decipher runs first and its failure is the result; otherwise sign's calls follow the decipher's and sign's exit code is the result |
| Pipeline.Authorized | src/tools/pkcs15-crypt.c:514-546 | the work on a resolved key exits 0, 1, 2 or 5 and releases nothing |
| Pipeline.Operate | src/tools/pkcs15-crypt.c:495-546 | the work inside an open session exits 0, 1, 2 or 5, starts with the key enumeration and releases nothing |
| Pipeline.OpenSession | src/tools/pkcs15-crypt.c:448-491 | the session opens exactly when there is an action, a valid reader index, a present card, and every session call succeeds. Otherwise the exit is 1, 2 or 3 without any crypto call, and a failed context establishment exits 1 with nothing to release |
| Pipeline.Main | src/tools/pkcs15-crypt.c:390-559 | the tool exits 0, 1, 2, 3 or 5. No action gives the usage exit with no call, and otherwise the first call establishes the context |
| PipelineLemmas.TeardownReleasesWhatWasAcquired | src/tools/pkcs15-crypt.c:547-557 | apart from the exit-3 run, which ends after the presence check, every run is its non-release calls followed by exactly the releases of what those calls acquired: unbind, then unlock and disconnect, then context release |
| PipelineLemmas.TeardownAfterConnect | src/tools/pkcs15-crypt.c:468-491 | a failed connect, lock or bind exits 1 and releases exactly what had been acquired |
| PipelineLemmas.OpenedRun | src/tools/pkcs15-crypt.c:547-557 | after a successful bind the run is the opening calls, the operation calls and the full teardown, with the operation's exit code |
| PipelineLemmas.BadReaderTouchesNoCard | src/tools/pkcs15-crypt.c:457-461 | an invalid reader index exits 1 after establishing and releasing the context only |
| PipelineLemmas.AbsentCardSkipsTeardown | src/tools/pkcs15-crypt.c:462-465 | without a card the run exits 3 after the presence check, and releases nothing |
| PipelineLemmas.UnlockEvenWhenLockFailed | src/tools/pkcs15-crypt.c:476-481 | a failed lock exits 1 and still unlocks and disconnects the card before releasing the context |
| PipelineLemmas.OperateStopsAtResolution | src/tools/pkcs15-crypt.c:495-513 | a key resolution that stops ends the session's work with 1 (enumeration) or 2 (unknown id), making lookup calls only |
| PipelineLemmas.KeyResolutionFailures | src/tools/pkcs15-crypt.c:495-513 | a failed key resolution exits 1 or 2, with no PIN call and no crypto call in the whole run |
| PipelineLemmas.NoAuthIdNoPin | src/tools/pkcs15-crypt.c:514 | a key without an authentication id is used without any PIN lookup or verification |
| PipelineLemmas.OperateStopsAtAuthentication | src/tools/pkcs15-crypt.c:514-536 | a failed authentication ends the session's work with its code, before any crypto call |
| PipelineLemmas.FailedAuthenticationBlocksCrypto | src/tools/pkcs15-crypt.c:514-536 | a missing PIN object, a cancelled prompt or a rejected PIN exits 1 or 5 with no crypto call in the whole run |
| PipelineLemmas.UnopenedRunHasNoCrypto | src/tools/pkcs15-crypt.c:448-491 | a run whose session does not open makes no crypto call |
| PipelineLemmas.OperateCryptoNeedsAuthentication | src/tools/pkcs15-crypt.c:514-546 | the session's work makes a crypto call only for a resolved key that authenticated, and an authenticated key with a PIN was accepted by the card |
| PipelineLemmas.CryptoOnlyAfterAuthentication | src/tools/pkcs15-crypt.c:514-546 | any crypto call implies an opened session and a resolved key whose PIN, if it has one, the card verified, with the verification in the trace |
| PipelineLemmas.OperateStopsAtDecipher | src/tools/pkcs15-crypt.c:537-541 | a failed decipher ends the session's work with its code, and every crypto call is one of the decipher's |
| PipelineLemmas.FailedDecipherSkipsSign | src/tools/pkcs15-crypt.c:537-546 | a failed decipher exits with its code, and the run contains no software or card signature call |
| PipelineLemmas.OperateWithoutOperations | src/tools/pkcs15-crypt.c:537-546 | without sign or decipher the session's work makes no crypto call, and succeeds once the key authenticates |
| PipelineLemmas.KeyOnlyRunsWithoutCrypto | src/tools/pkcs15-crypt.c:415-418 | --key alone opens the session, makes no crypto call and exits 0 once the key authenticates |
| PipelineLemmas.NativeSignWritesCardSignature | src/tools/pkcs15-crypt.c:292-322 | a sign-only run with a native key that the checks admit (any input for padded or non-RSA keys, exactly modulus/8 bytes otherwise) exits 0 and writes out exactly the card's signature length |
| PipelineLemmas.UnhashedSoftwareSignExitsOne | src/tools/pkcs15-crypt.c:241-258 | a sign-only run with an authenticated RSA key on the extracted path, no hash flag and an admitted input that is neither 16 nor 20 bytes long exits 1, and no signer is called anywhere in the run |

## Left out

- Command-line parsing (`getopt_long`, `atoi`) is not modelled. `Options` holds the parsed actions, the reader index, the PIN and the request.
- The hex decoding of the `--key` argument is not modelled. A `KeyAction` carries the decoded id.
- `print_usage_and_die` lives in util.c, which is not part of this model. Its exit status is taken to be 2 (`UsageExit`).
- The numeric values of the card library's error codes are not modelled, because its errors.h is not part of this model. The constants only keep the sign and distinctness the tool relies on.
- File contents, the bytes of signatures and plaintexts, and the software crypto arithmetic are not modelled. Only lengths and statuses are, because no property of the tool depends on the bytes.
- Console output (error messages, `--quiet`, `--debug`) is not modelled, because it has no effect on the exit code or the calls.
- `getpass` is modelled as a finite sequence of typed lines, with the end of input read as an empty line. The real prompt may loop forever; a finite script cannot.
- The built-in passphrase literal is not modelled; it is represented by the opaque value `BuiltInPassphrase`. The interactive passphrase prompt (lines 167-170) sits after an unconditional `continue`, so it is unreachable and left out.
- Freeing memory (`free`, `EVP_PKEY_free`, `sc_pkcs15_free_*`) is not modelled. Leaks and double frees are not properties of the trace; the one free whose validity depends on the C library is listed under `Pin.GetPin` below.
- The build without the crypto library (lines 306-311 and 369-374) is not modelled. The model is the build with it.
- The `action_count` decrements (lines 540 and 545) are not modelled, because nothing reads them afterwards.
- Extract.ExtractKey: a DSA object whose material reads back with another algorithm makes the source dereference a DSA structure that was never created (line 217), which is undefined behaviour. The model instead returns the material with the public parameters merged.
- Crypt.SignExt: an RSA object whose material reads back as DSA (and the reverse) makes the source hand the wrong key structure to the signer, which is undefined behaviour. The model signs according to the object's type. It also does not model how the signers write the signature length. `sign_ext` hands them the address of its `size_t` output length as an `unsigned int *` (lines 259 and 265), which violates strict aliasing. On a 64-bit big-endian host the signer then writes the high half, and line 272 returns the untouched 1024 instead of the signature length. `Crypt.PrimitiveResult` assumes the written length is exact.
- Card.FindKeyById: the library's lookups fail here only when no object matches. The source handles any failure of `sc_pkcs15_find_prkey_by_id` (line 505) as exit 2, whatever its cause. It handles any failure of `sc_pkcs15_find_pin_by_auth_id` (line 515) as exit 1. Any failure of `sc_pkcs15_find_pubkey_by_id` (line 210) is returned as is. The model has no scripted lookup errors, so "exit 2 exactly when no key has the id" and "a missing PIN object gives 1" hold only for a library whose lookups cannot fail otherwise.
- Card.FindPinByAuthId: the PIN lookup fails only when no PIN object matches; see `Card.FindKeyById`.
- Pin.GetPin: two pieces of undefined behaviour are not modelled. The prompt is formatted with `sprintf` into an 80-byte buffer (line 96), which overflows for a PIN label longer than 65 bytes; the model keeps the label (`displayLabel`) but never formats it. After a successful verification the tool frees the string `getpass` returned (line 533), which is undefined behaviour on C libraries whose `getpass` returns a static buffer; a `getpass` that returns NULL makes `strlen` undefined too, and the model reads the end of input as an empty line instead.

=== FILE: card.dfy ===
/**
 The values pkcs15-crypt exchanges with its collaborators: the smart-card
 library (context, reader, card, PKCS #15 binding and objects), the software
 crypto library, the terminal and the file system.

 None of these collaborators is modelled. Each one is replaced by a scripted
 answer held in an `Env` value. Every call that acquires or releases a
 session resource, looks up or reads an object, reads the input, uses a key or
 writes a result is recorded as a `Call` in a trace; id decoding, the building
 of software key structures and the freeing of memory are not. Properties
 about the order of calls (acquire before use, release in reverse order, no
 crypto before the PIN is verified) are stated over that trace. The terminal's PIN prompts are not recorded: the lines typed
 at them are a sequence in `Host`, which the PIN prompt loop consumes.
 */
module Card {

  datatype Option<T> = None | Some(value: T)

  newtype byte = x: int | 0 <= x < 256

  /** A PKCS #15 identifier: an object id or an authentication id. */
  type Id = seq<byte>

  /** The bytes of a C string (a PIN, a line typed at the prompt): its length
      is what `strlen` counts, so a multi-byte character counts several times.
      A C string ends at its first 0 byte, so none of the strings the tool
      reads from the command line or the prompt holds one; the type does not
      rule a 0 byte out, and no property here depends on its absence. */
  type Bytes = seq<byte>

  /** The card library reports every failure with a negative code. */
  type ErrorCode = c: int | c < 0 witness -1

  // Error codes of the card library that the tool produces or tests for.
  // Only their sign and their distinctness matter to the tool.
  const ErrInvalidArguments: ErrorCode := -1300
  const ErrInternal: ErrorCode := -1400
  const ErrObjectNotFound: ErrorCode := -1407
  const ErrNotSupported: ErrorCode := -1408
  const ErrPassphraseRequired: ErrorCode := -1409

  /** Size of the tool's input and output buffers. */
  const BufferSize: nat := 1024

  /** At most this many private-key objects are enumerated. */
  const MaxKeys: nat := 32

  /** A card-library result: a value, or a negative error code. */
  datatype Result<T> = Ok(value: T) | Err(code: ErrorCode)

  /** The crypt flags the command line can set: --pkcs1, --sha-1 and --md5. */
  datatype CryptFlags = CryptFlags(pkcs1: bool, sha1: bool, md5: bool)

  /** The type of a private-key object as the PKCS #15 directory records it. */
  datatype KeyType = RsaKey | DsaKey | OtherKey

  /** A private-key object: its id, type, whether the card computes with it
      itself (`native`), its modulus length in bits, and the authentication id
      of the PIN guarding it (empty when no PIN is needed). */
  datatype KeyObject = KeyObject(id: Id, keyType: KeyType, native: bool, modulusLength: nat, authId: Id)

  /** A PIN object: the authentication id it answers to, the label shown at
      the prompt (`displayLabel`) and the bounds an entered PIN's length must
      respect. */
  datatype PinObject = PinObject(authId: Id, displayLabel: string, minLength: nat, storedLength: nat)

  /** The algorithm of key material read back from an extractable key. */
  datatype Algorithm = AlgRsa | AlgDsa | AlgOther

  /** What one attempt to read extractable key material answers. */
  datatype PrkeyRead = PrkeyRead(alg: Algorithm) | PrkeyFailed(code: ErrorCode)

  /** The passphrase handed to the key reader: none, or the tool's built-in one
      (an opaque credential here). */
  datatype Passphrase = NoPassphrase | BuiltInPassphrase

  /** What a software signature primitive answers: its status (positive on
      success) and the signature length it reports. */
  datatype Primitive = Primitive(ret: int, outLen: nat)

  datatype Hash = Md5 | Sha1

  /** Scripted answers of the session calls: context creation, the number of
      configured readers, card presence (1 means present), connect, lock and
      bind (0 means success). */
  datatype Session = Session(establish: int, readerCount: int, presence: int, connect: int, lock: int, bind: int)

  /** The bound card: its private keys in the library's enumeration order, its
      PIN objects, the ids of its public keys, and the answers of the calls that
      read or compute with them. `signature` and `decipher` are the results of
      the card's own primitives: an output length, or a negative error. */
  datatype Contents = Contents(
    listError: Option<ErrorCode>,
    keys: seq<KeyObject>,
    pins: seq<PinObject>,
    pubkeyIds: set<Id>,
    readPubkey: int,
    verify: int,
    prkeyPlain: PrkeyRead,
    prkeyWithPass: PrkeyRead,
    signature: int,
    decipher: int)

  /** Answers of the software crypto library: the RSA and DSA signers and the
      RSA decryption, whose result is a plaintext length (positive on success). */
  datatype Software = Software(rsaSign: Primitive, dsaSign: Primitive, rsaDecrypt: int)

  /** The host: the lines typed at successive PIN prompts (the end of the
      sequence reads as an empty line), the size of the input file (None when
      it cannot be opened), and whether the output file can be opened. */
  datatype Host = Host(answers: seq<Bytes>, inputSize: Option<nat>, outputWritable: bool)

  datatype Env = Env(session: Session, card: Contents, soft: Software, host: Host)

  /** A call made on a collaborator. */
  datatype Call =
    | EstablishContext
    | DetectCard(reader: int)
    | ConnectCard(reader: int)
    | Lock
    | Bind
    | ListKeys
    | FindKey(id: Id)
    | FindPin(authId: Id)
    | VerifyPin(code: Bytes)
    | ReadInput
    | ComputeSignature(flags: CryptFlags, len: nat)
    | CardDecipher(flags: CryptFlags, len: nat)
    | ReadPrkey(pass: Passphrase)
    | FindPubkey(id: Id)
    | ReadPubkey
    | RsaSign(hash: Hash, len: nat)
    | DsaSign(hash: Hash, len: nat)
    | RsaDecrypt(len: nat)
    | WriteOutput(len: nat, status: int)
    | Unbind
    | Unlock
    | Disconnect
    | ReleaseContext
  {
    /** A call that gives back a session resource. */
    predicate IsRelease() {
      Unbind? || Unlock? || Disconnect? || ReleaseContext?
    }

    /** A call that reads the input, uses a private key or writes a result. */
    predicate IsCrypto() {
      || ReadInput? || ComputeSignature? || CardDecipher? || ReadPrkey? || FindPubkey?
      || ReadPubkey? || RsaSign? || DsaSign? || RsaDecrypt? || WriteOutput?
    }
  }

  /** What a stage of the tool returns: a result code and the calls it made. */
  datatype Step = Step(code: int, calls: seq<Call>)

  predicate NoCrypto(calls: seq<Call>) {
    forall c :: c in calls ==> !c.IsCrypto()
  }

  predicate NoRelease(calls: seq<Call>) {
    forall c :: c in calls ==> !c.IsRelease()
  }

  /** The private-key lookup by id: the first key object carrying `id`. */
  function FindKeyById(keys: seq<KeyObject>, id: Id): (r: Option<KeyObject>)
    ensures r.Some? ==> r.value in keys && r.value.id == id
    ensures r.None? <==> forall i :: 0 <= i < |keys| ==> keys[i].id != id
  {
    if |keys| == 0 then None
    else if keys[0].id == id then Some(keys[0])
    else FindKeyById(keys[1..], id)
  }

  /** The PIN lookup by authentication id: the first PIN object answering to it. */
  function FindPinByAuthId(pins: seq<PinObject>, authId: Id): (r: Option<PinObject>)
    ensures r.Some? ==> r.value in pins && r.value.authId == authId
    ensures r.None? <==> forall i :: 0 <= i < |pins| ==> pins[i].authId != authId
  {
    if |pins| == 0 then None
    else if pins[0].authId == authId then Some(pins[0])
    else FindPinByAuthId(pins[1..], authId)
  }

  /** What reading the input file into the tool's buffer yields: -1 when the
      file cannot be opened, otherwise the number of bytes read, which the
      buffer caps. */
  function ReadInputCount(host: Host): (c: int)
    ensures c < 0 <==> host.inputSize.None?
    ensures c < 0 ==> c == -1
    ensures c >= 0 ==> c <= BufferSize && c <= host.inputSize.value
    ensures c >= 0 && host.inputSize.value <= BufferSize ==> c == host.inputSize.value
    ensures c >= 0 && host.inputSize.value > BufferSize ==> c == BufferSize
  {
    match host.inputSize
    case None => -1
    case Some(n) => if n <= BufferSize then n else BufferSize
  }

  /** The status writing a result returns: -1 when the named output file cannot
      be opened, 0 otherwise (standard output always succeeds). */
  function WriteStatus(output: Option<string>, host: Host): (s: int)
    ensures s == 0 || s == -1
    ensures s == -1 <==> output.Some? && !host.outputWritable
  {
    if output.Some? && !host.outputWritable then -1 else 0
  }
}

=== FILE: crypt.dfy ===
/**
 The two operations of the tool, sign and decipher, each with its native path
 (the card computes) and its extracted path (the key material is read back and
 the software crypto library computes).
 */
module Crypt {
  import opened Card
  import opened Extract

  /** The part of the command line the operations read: the input and output
      file names and the crypt flags. */
  datatype Request = Request(input: Option<string>, output: Option<string>, flags: CryptFlags)

  /** The length of the digest a hash algorithm produces. */
  function DigestLength(h: Hash): nat {
    match h
    case Md5 => 16
    case Sha1 => 20
  }

  /** The digest algorithm an RSA signature on the extracted path is made
      with: the one a flag names, --md5 winning over --sha-1, and otherwise the
      one whose digest length is the input length. */
  function SelectHash(flags: CryptFlags, len: nat): (r: Result<Hash>)
    ensures flags.md5 ==> r == Ok(Md5)
    ensures !flags.md5 && flags.sha1 ==> r == Ok(Sha1)
    ensures !flags.md5 && !flags.sha1 ==>
      (r.Ok? <==> exists h: Hash :: DigestLength(h) == len)
      && (r.Ok? ==> DigestLength(r.value) == len)
    ensures r.Err? ==> r.code == ErrInvalidArguments
  {
    if flags.md5 then Ok(Md5)
    else if flags.sha1 then Ok(Sha1)
    else if len == 16 then assert DigestLength(Md5) == len; Ok(Md5)
    else if len == 20 then assert DigestLength(Sha1) == len; Ok(Sha1)
    else
      assert forall h: Hash :: DigestLength(h) != len;
      Err(ErrInvalidArguments)
  }

  /** The status a software primitive's answer becomes: anything not positive
      is an internal error, and success yields the output length. */
  function PrimitiveResult(p: Primitive): (r: int)
    ensures p.ret <= 0 <==> r == ErrInternal
    ensures p.ret > 0 ==> r == p.outLen
  {
    if p.ret <= 0 then ErrInternal else p.outLen
  }

  /** Signature on the extracted path (sign_ext): a negative error, or the
      signature length. */
  function SignExt(key: KeyObject, len: nat, flags: CryptFlags, env: Env): (x: Step)
    ensures |x.calls| >= 1 && x.calls[0] == ReadPrkey(NoPassphrase)
    ensures ExtractKey(key, env.card).calls <= x.calls && |x.calls| <= |ExtractKey(key, env.card).calls| + 1
    ensures forall c :: c in x.calls ==> c.IsCrypto()
    ensures ExtractKey(key, env.card).result.Err? ==>
      x.code == ExtractKey(key, env.card).result.code && NoSignerCall(x.calls)
    ensures forall c :: c in x.calls && c.DsaSign? ==> c.hash == Sha1 && key.keyType == DsaKey
    ensures forall c :: c in x.calls && c.RsaSign? ==>
      key.keyType == RsaKey && SelectHash(flags, len) == Ok(c.hash) && c.len == len
    ensures key.keyType == RsaKey && ExtractKey(key, env.card).result.Ok? ==>
      (match SelectHash(flags, len)
       case Err(e) => x.code == e && NoSignerCall(x.calls)
       case Ok(h) =>
         x.calls[|x.calls| - 1] == RsaSign(h, len) && (x.code == ErrInternal <==> env.soft.rsaSign.ret <= 0)
         && (env.soft.rsaSign.ret > 0 ==> x.code == env.soft.rsaSign.outLen))
    ensures key.keyType == DsaKey && ExtractKey(key, env.card).result.Ok? ==>
      x.calls[|x.calls| - 1] == DsaSign(Sha1, len)
      && (x.code == ErrInternal <==> env.soft.dsaSign.ret <= 0)
      && (env.soft.dsaSign.ret > 0 ==> x.code == env.soft.dsaSign.outLen)
    ensures key.keyType == OtherKey && ExtractKey(key, env.card).result.Ok? ==> x.code == BufferSize
  {
    var ext := ExtractKey(key, env.card);
    if ext.result.Err? then Step(ext.result.code, ext.calls)
    else
      match key.keyType
      case RsaKey =>
        (match SelectHash(flags, len)
         case Err(e) => Step(e, ext.calls)
         case Ok(h) => Step(PrimitiveResult(env.soft.rsaSign), ext.calls + [RsaSign(h, len)]))
      case DsaKey => Step(PrimitiveResult(env.soft.dsaSign), ext.calls + [DsaSign(Sha1, len)])
      // No branch handles other key types: the status stays that of the
      // extraction and the full output buffer is taken as the signature.
      case OtherKey => Step(BufferSize, ext.calls)
  }

  predicate NoSignerCall(calls: seq<Call>) {
    forall c :: c in calls ==> !c.RsaSign? && !c.DsaSign?
  }

  /** RSA signing without PKCS #1 padding needs an input exactly as long as
      the modulus. */
  predicate NeedsExactInput(key: KeyObject, flags: CryptFlags) {
    key.keyType == RsaKey && !flags.pkcs1
  }

  /** The signature path chosen by the key's `native` flag: the card's own
      primitive, which gets every crypt flag, or the extracted path. */
  function SignStep(key: KeyObject, len: nat, req: Request, env: Env): (x: Step)
    ensures forall c :: c in x.calls ==> c.IsCrypto()
    ensures key.native ==> x == Step(env.card.signature, [ComputeSignature(req.flags, len)])
    ensures !key.native ==>
      |x.calls| >= 1 && x.calls[0] == ReadPrkey(NoPassphrase) && forall c :: c in x.calls ==> !c.ComputeSignature?
    ensures !key.native ==> x == SignExt(key, len, req.flags, env)
  {
    if !key.native then SignExt(key, len, req.flags, env)
    else Step(env.card.signature, [ComputeSignature(req.flags, len)])
  }

  /** The signature operation (sign): its exit code and calls. */
  function Sign(key: KeyObject, req: Request, env: Env): (x: Step)
    ensures x.code == 0 || x.code == 1 || x.code == 2
    ensures forall c :: c in x.calls ==> c.IsCrypto()
  {
    if req.input.None? then Step(2, [])
    else if req.output.None? then Step(2, [])
    else
      var c := ReadInputCount(env.host);
      if c < 0 then Step(2, [ReadInput])
      else if NeedsExactInput(key, req.flags) && c != key.modulusLength / 8 then Step(2, [ReadInput])
      else
        var op := SignStep(key, c, req, env);
        if op.code < 0 then Step(1, [ReadInput] + op.calls)
        else Step(0, [ReadInput] + op.calls + [WriteOutput(op.code, WriteStatus(req.output, env.host))])
  }

  /** Signing refuses, with the usage exit 2, a missing input or output file,
      an unreadable input and, for RSA without PKCS #1 padding, an input whose
      length is not the modulus length in bytes. */
  lemma SignChecksArguments(key: KeyObject, req: Request, env: Env)
    ensures req.input.None? || req.output.None? ==> Sign(key, req, env) == Step(2, [])
    ensures req.input.Some? && req.output.Some? ==>
      |Sign(key, req, env).calls| >= 1 && Sign(key, req, env).calls[0] == ReadInput
    ensures req.input.Some? && req.output.Some? && ReadInputCount(env.host) < 0 ==>
      Sign(key, req, env) == Step(2, [ReadInput])
    ensures req.input.Some? && req.output.Some? && ReadInputCount(env.host) >= 0
      && NeedsExactInput(key, req.flags) && ReadInputCount(env.host) != key.modulusLength / 8
      ==> Sign(key, req, env) == Step(2, [ReadInput])
  {
  }

  /** After the checks, signing fails with exit 1 exactly when the chosen
      path fails, and otherwise exits 0 after writing out the path's result;
      a native key's result is the card's answer. The native path never reads
      key material, the extracted one never asks the card to sign. */
  lemma SignOutcome(key: KeyObject, req: Request, env: Env)
    ensures key.native ==>
      NoSignerCall(Sign(key, req, env).calls) && forall c :: c in Sign(key, req, env).calls ==> !c.ReadPrkey?
    ensures !key.native ==> forall c :: c in Sign(key, req, env).calls ==> !c.ComputeSignature?
    ensures key.native && |Sign(key, req, env).calls| >= 2 ==>
      Sign(key, req, env).calls[1] == ComputeSignature(req.flags, ReadInputCount(env.host))
    ensures Sign(key, req, env).code == 0 ==>
      exists n: nat :: Sign(key, req, env).calls[|Sign(key, req, env).calls| - 1]
                       == WriteOutput(n, WriteStatus(req.output, env.host))
    ensures Sign(key, req, env).code != 0 ==> forall c :: c in Sign(key, req, env).calls ==> !c.WriteOutput?
    ensures key.native && Sign(key, req, env).code == 0 ==>
      env.card.signature >= 0
      && Sign(key, req, env).calls[|Sign(key, req, env).calls| - 1]
         == WriteOutput(env.card.signature as nat, WriteStatus(req.output, env.host))
    ensures req.input.Some? && req.output.Some? && ReadInputCount(env.host) >= 0
      && !(NeedsExactInput(key, req.flags) && ReadInputCount(env.host) != key.modulusLength / 8)
      ==> (Sign(key, req, env).code == 1 <==> SignStep(key, ReadInputCount(env.host), req, env).code < 0)
          && (Sign(key, req, env).code == 0 <==> SignStep(key, ReadInputCount(env.host), req, env).code >= 0)
          && (Sign(key, req, env).code == 0 ==>
                Sign(key, req, env).calls[|Sign(key, req, env).calls| - 1]
                == WriteOutput(SignStep(key, ReadInputCount(env.host), req, env).code as nat,
                               WriteStatus(req.output, env.host)))
          && Sign(key, req, env).calls
             == [ReadInput] + SignStep(key, ReadInputCount(env.host), req, env).calls
                + (if SignStep(key, ReadInputCount(env.host), req, env).code >= 0
                   then [WriteOutput(SignStep(key, ReadInputCount(env.host), req, env).code as nat,
                                     WriteStatus(req.output, env.host))]
                   else [])
  {
  }

  /** An RSA key on the extracted path, without --md5 or --sha-1, can only
      sign a 16- or 20-byte input: any other length that the argument checks
      let through makes signing fail with exit 1 (not the usage exit 2), and
      no signer is ever called. */
  lemma UnhashedInputFailsSign(key: KeyObject, req: Request, env: Env)
    requires !key.native && key.keyType == RsaKey && !req.flags.md5 && !req.flags.sha1
    requires req.input.Some? && req.output.Some? && ReadInputCount(env.host) >= 0
    requires ReadInputCount(env.host) != 16 && ReadInputCount(env.host) != 20
    requires NeedsExactInput(key, req.flags) ==> ReadInputCount(env.host) == key.modulusLength / 8
    ensures Sign(key, req, env).code == 1
    ensures NoSignerCall(Sign(key, req, env).calls)
  {
  }

  /** Decryption on the extracted path (decipher_ext): a negative error, or
      the plaintext length. Only RSA keys can decrypt. */
  function DecipherExt(key: KeyObject, len: nat, env: Env): (x: Step)
    ensures |x.calls| >= 1 && x.calls[0] == ReadPrkey(NoPassphrase)
    ensures ExtractKey(key, env.card).calls <= x.calls && |x.calls| <= |ExtractKey(key, env.card).calls| + 1
    ensures forall c :: c in x.calls ==> c.IsCrypto()
    ensures key.keyType != RsaKey ==> x.code < 0 && forall c :: c in x.calls ==> !c.RsaDecrypt?
    ensures x.code >= 0 ==>
      key.keyType == RsaKey && ExtractKey(key, env.card).result.Ok?
      && x.calls[|x.calls| - 1] == RsaDecrypt(len) && x.code == env.soft.rsaDecrypt
    ensures ExtractKey(key, env.card).result.Err? ==> x.code == ExtractKey(key, env.card).result.code
    ensures key.keyType == RsaKey && ExtractKey(key, env.card).result.Ok? && env.soft.rsaDecrypt <= 0 ==>
      x.code == ErrInternal
    ensures key.keyType == RsaKey && ExtractKey(key, env.card).result.Ok? && env.soft.rsaDecrypt > 0 ==>
      x.code == env.soft.rsaDecrypt && x.calls[|x.calls| - 1] == RsaDecrypt(len)
    ensures key.keyType != RsaKey && ExtractKey(key, env.card).result.Ok? ==> x.code == ErrNotSupported
  {
    var ext := ExtractKey(key, env.card);
    if ext.result.Err? then Step(ext.result.code, ext.calls)
    else if key.keyType == RsaKey then
      Step(if env.soft.rsaDecrypt <= 0 then ErrInternal else env.soft.rsaDecrypt, ext.calls + [RsaDecrypt(len)])
    else Step(ErrNotSupported, ext.calls)
  }

  /** The decryption path chosen by the key's `native` flag: the card's own
      primitive, which gets only the PKCS #1 padding flag, or the extracted
      path. */
  function DecipherStep(key: KeyObject, len: nat, req: Request, env: Env): (x: Step)
    ensures forall c :: c in x.calls ==> c.IsCrypto()
    ensures key.native ==>
      x == Step(env.card.decipher, [CardDecipher(CryptFlags(req.flags.pkcs1, false, false), len)])
    ensures !key.native ==>
      |x.calls| >= 1 && x.calls[0] == ReadPrkey(NoPassphrase) && forall c :: c in x.calls ==> !c.CardDecipher?
    ensures !key.native ==> x == DecipherExt(key, len, env)
  {
    if !key.native then DecipherExt(key, len, env)
    else Step(env.card.decipher, [CardDecipher(CryptFlags(req.flags.pkcs1, false, false), len)])
  }

  /** The decryption operation (decipher): its exit code and calls. Unlike
      signing it does not insist on an output file. */
  function Decipher(key: KeyObject, req: Request, env: Env): (x: Step)
    ensures x.code == 0 || x.code == 1 || x.code == 2
    ensures forall c :: c in x.calls ==> c.IsCrypto() && !c.RsaSign? && !c.DsaSign? && !c.ComputeSignature?
  {
    if req.input.None? then Step(2, [])
    else
      var c := ReadInputCount(env.host);
      if c < 0 then Step(2, [ReadInput])
      else
        var op := DecipherStep(key, c, req, env);
        if op.code < 0 then Step(1, [ReadInput] + op.calls)
        else Step(0, [ReadInput] + op.calls + [WriteOutput(op.code, WriteStatus(req.output, env.host))])
  }

  /** Deciphering refuses, with the usage exit 2, a missing or unreadable
      input file; it reads the input first. */
  lemma DecipherChecksArguments(key: KeyObject, req: Request, env: Env)
    ensures req.input.None? ==> Decipher(key, req, env) == Step(2, [])
    ensures req.input.Some? ==> |Decipher(key, req, env).calls| >= 1 && Decipher(key, req, env).calls[0] == ReadInput
    ensures req.input.Some? && ReadInputCount(env.host) < 0 ==> Decipher(key, req, env) == Step(2, [ReadInput])
  {
  }

  /** After the checks, deciphering fails with exit 1 exactly when the chosen
      path fails, and otherwise exits 0 after writing out the path's result; a
      native key's result is the card's answer. */
  lemma DecipherOutcome(key: KeyObject, req: Request, env: Env)
    ensures key.native ==> forall c :: c in Decipher(key, req, env).calls ==> !c.ReadPrkey? && !c.RsaDecrypt?
    ensures !key.native ==> forall c :: c in Decipher(key, req, env).calls ==> !c.CardDecipher?
    ensures key.native && |Decipher(key, req, env).calls| >= 2 ==>
      Decipher(key, req, env).calls[1] == CardDecipher(CryptFlags(req.flags.pkcs1, false, false), ReadInputCount(env.host))
    ensures Decipher(key, req, env).code == 0 ==>
      exists n: nat :: Decipher(key, req, env).calls[|Decipher(key, req, env).calls| - 1]
                       == WriteOutput(n, WriteStatus(req.output, env.host))
    ensures Decipher(key, req, env).code != 0 ==> forall c :: c in Decipher(key, req, env).calls ==> !c.WriteOutput?
    ensures key.native && Decipher(key, req, env).code == 0 ==>
      env.card.decipher >= 0
      && Decipher(key, req, env).calls[|Decipher(key, req, env).calls| - 1]
         == WriteOutput(env.card.decipher as nat, WriteStatus(req.output, env.host))
    ensures req.input.Some? && ReadInputCount(env.host) >= 0 ==>
      (Decipher(key, req, env).code == 1 <==> DecipherStep(key, ReadInputCount(env.host), req, env).code < 0)
      && (Decipher(key, req, env).code == 0 <==> DecipherStep(key, ReadInputCount(env.host), req, env).code >= 0)
      && (Decipher(key, req, env).code == 0 ==>
            Decipher(key, req, env).calls[|Decipher(key, req, env).calls| - 1]
            == WriteOutput(DecipherStep(key, ReadInputCount(env.host), req, env).code as nat,
                           WriteStatus(req.output, env.host)))
      && Decipher(key, req, env).calls
         == [ReadInput] + DecipherStep(key, ReadInputCount(env.host), req, env).calls
            + (if DecipherStep(key, ReadInputCount(env.host), req, env).code >= 0
               then [WriteOutput(DecipherStep(key, ReadInputCount(env.host), req, env).code as nat,
                                 WriteStatus(req.output, env.host))]
               else [])
  {
  }

  /** Whether the result could be written never changes the exit code. */
  lemma WriteStatusIgnored(key: KeyObject, req: Request, env: Env, writable: bool)
    ensures Sign(key, req, env).code == Sign(key, req, env.(host := env.host.(outputWritable := writable))).code
    ensures Decipher(key, req, env).code == Decipher(key, req, env.(host := env.host.(outputWritable := writable))).code
  {
  }

  /** Signing insists on an output file; deciphering writes to standard output
      without one and succeeds whenever the card does. */
  lemma OutputRequiredOnlyForSign(key: KeyObject, req: Request, env: Env)
    requires req.input.Some? && req.output.None?
    requires key.native && env.host.inputSize.Some? && env.card.decipher >= 0
    ensures Sign(key, req, env) == Step(2, [])
    ensures Decipher(key, req, env).code == 0
  {
  }
}

=== FILE: extract.dfy ===
/**
 Key extraction (extract_key): reading the private key material of a
 non-native key back from the card so that the software crypto library can
 compute with it, retrying once with the tool's built-in passphrase, and for a
 DSA key completing the material with the public parameters of the matching
 public-key object.
 */
module Extract {
  import opened Card

  /** Key material rebuilt in software: its algorithm, and whether the DSA
      public parameters were merged in from the public-key object. */
  datatype KeyMaterial = KeyMaterial(alg: Algorithm, dsaPublic: bool)

  datatype Extraction = Extraction(result: Result<KeyMaterial>, calls: seq<Call>)

  /** The read loop: one read without a passphrase and, only when that read
      demands one, a second read with the built-in passphrase. A second demand
      becomes an internal error. */
  function ReadLoop(card: Contents): (x: (PrkeyRead, seq<Call>))
    ensures 1 <= |x.1| <= 2 && x.1[0] == ReadPrkey(NoPassphrase)
    ensures |x.1| == 2 <==> card.prkeyPlain == PrkeyFailed(ErrPassphraseRequired)
    ensures |x.1| == 2 ==> x.1[1] == ReadPrkey(BuiltInPassphrase)
    ensures x.0 != PrkeyFailed(ErrPassphraseRequired)
    ensures card.prkeyPlain != PrkeyFailed(ErrPassphraseRequired) ==> x.0 == card.prkeyPlain
    ensures card.prkeyPlain == PrkeyFailed(ErrPassphraseRequired)
         && card.prkeyWithPass != PrkeyFailed(ErrPassphraseRequired)
         ==> x.0 == card.prkeyWithPass
  {
    if card.prkeyPlain != PrkeyFailed(ErrPassphraseRequired) then
      (card.prkeyPlain, [ReadPrkey(NoPassphrase)])
    else if card.prkeyWithPass == PrkeyFailed(ErrPassphraseRequired) then
      (PrkeyFailed(ErrInternal), [ReadPrkey(NoPassphrase), ReadPrkey(BuiltInPassphrase)])
    else
      (card.prkeyWithPass, [ReadPrkey(NoPassphrase), ReadPrkey(BuiltInPassphrase)])
  }

  /** Extraction of the material of `key`. The algorithm read back decides
      how the material is built (an unknown one is not supported), but it is
      the object's type that decides whether the DSA public parameters are
      fetched; that step overrides the earlier status. */
  function ExtractKey(key: KeyObject, card: Contents): (x: Extraction)
    ensures |x.calls| >= 1 && x.calls[0] == ReadPrkey(NoPassphrase)
    ensures forall c :: c in x.calls ==> c.ReadPrkey? || c.FindPubkey? || c.ReadPubkey?
    ensures forall i :: 0 <= i < |x.calls| && x.calls[i].ReadPrkey? ==> i < 2
    ensures card.prkeyPlain == PrkeyFailed(ErrPassphraseRequired)
         && card.prkeyWithPass == PrkeyFailed(ErrPassphraseRequired)
         ==> x.result == Err(ErrInternal)
    ensures ReadLoop(card).0.PrkeyFailed? ==> x.result == Err(ReadLoop(card).0.code)
    ensures x.result.Ok? ==>
      ReadLoop(card).0.PrkeyRead? && x.result.value.alg == ReadLoop(card).0.alg
      && (x.result.value.dsaPublic <==> key.keyType == DsaKey)
    ensures key.keyType == DsaKey && ReadLoop(card).0.PrkeyRead? ==>
      (x.result.Ok? <==> key.id in card.pubkeyIds && card.readPubkey >= 0)
    ensures key.keyType == DsaKey && ReadLoop(card).0.PrkeyRead? && key.id !in card.pubkeyIds ==>
      x.result == Err(ErrObjectNotFound)
    ensures key.keyType == DsaKey && ReadLoop(card).0.PrkeyRead? && key.id in card.pubkeyIds
         && card.readPubkey < 0
         ==> x.result == Err(card.readPubkey)
    ensures key.keyType != DsaKey ==>
      (x.result.Ok? <==> ReadLoop(card).0.PrkeyRead? && ReadLoop(card).0.alg != AlgOther)
    ensures key.keyType != DsaKey && ReadLoop(card).0.PrkeyRead? && ReadLoop(card).0.alg == AlgOther ==>
      x.result == Err(ErrNotSupported)
    ensures key.keyType != DsaKey ==> forall c :: c in x.calls ==> c.ReadPrkey?
    ensures forall c :: c in x.calls && c.FindPubkey? ==> c.id == key.id
    ensures key.keyType == DsaKey && ReadLoop(card).0.PrkeyRead? ==>
      x.calls == ReadLoop(card).1 + [FindPubkey(key.id)] + (if key.id in card.pubkeyIds then [ReadPubkey] else [])
    ensures key.keyType == DsaKey && ReadLoop(card).0.PrkeyRead? ==>
      |x.calls| > |ReadLoop(card).1|
      && x.calls[..|ReadLoop(card).1| + 1] == ReadLoop(card).1 + [FindPubkey(key.id)]
  {
    var (read, calls) := ReadLoop(card);
    match read
    case PrkeyFailed(code) => Extraction(Err(code), calls)
    case PrkeyRead(alg) =>
      var built: Result<KeyMaterial> :=
        if alg == AlgOther then Err(ErrNotSupported) else Ok(KeyMaterial(alg, false));
      if key.keyType != DsaKey then Extraction(built, calls)
      else
        var found := calls + [FindPubkey(key.id)];
        if key.id !in card.pubkeyIds then Extraction(Err(ErrObjectNotFound), found)
        else if card.readPubkey < 0 then Extraction(Err(card.readPubkey), found + [ReadPubkey])
        else Extraction(Ok(KeyMaterial(alg, true)), found + [ReadPubkey])
  }
}

=== FILE: lemmas.dfy ===
/**
 Properties of the whole pipeline, stated over its exit code and the trace of
 collaborator calls it makes.
 */
module PipelineLemmas {
  import opened Card
  import opened Crypt
  import opened Pipeline

  /** Every resource that was acquired is released exactly once, in reverse
      order of acquisition, after every other call, and nothing that was not
      acquired is released. The one exception is a missing card: exit 3, and
      not even the context is released. */
  lemma TeardownReleasesWhatWasAcquired(o: Options, env: Env)
    ensures Main(o, env).code == 3 ==> Main(o, env).calls == [EstablishContext, DetectCard(o.reader)]
    ensures Main(o, env).code != 3 ==>
      exists pre :: NoRelease(pre) && Main(o, env).calls == pre + Teardown(Acquired(o, env.session, pre))
  {
    var s := env.session;
    var pre;
    if SessionOpens(o, s) {
      pre := OpenedTeardown(o, env);
    } else {
      AbortedRun(o, env);
      if |o.actions| == 0 {
        pre := [];
        assert OpenSession(o, s).calls == pre + Teardown(Acquired(o, s, pre));
      } else if s.establish != 0 || o.reader >= s.readerCount || o.reader < 0 {
        pre := [EstablishContext];
        assert OpenSession(o, s).calls == pre + Teardown(Acquired(o, s, pre));
      } else if s.presence != 1 {
        return;
      } else {
        pre := TeardownAfterConnect(o, s);
      }
    }
  }

  /** A run whose session does not open is the session part alone. */
  lemma AbortedRun(o: Options, env: Env)
    requires !SessionOpens(o, env.session)
    ensures Main(o, env) == Step(OpenSession(o, env.session).exit, OpenSession(o, env.session).calls)
  {
  }

  lemma TeardownAfterConnect(o: Options, s: Session) returns (pre: seq<Call>)
    requires |o.actions| > 0 && s.establish == 0 && 0 <= o.reader < s.readerCount && s.presence == 1
    requires s.connect != 0 || s.lock != 0 || s.bind != 0
    ensures OpenSession(o, s).Aborted? && OpenSession(o, s).exit == 1
    ensures NoRelease(pre) && OpenSession(o, s).calls == pre + Teardown(Acquired(o, s, pre))
  {
    if s.connect != 0 {
      pre := [EstablishContext, DetectCard(o.reader), ConnectCard(o.reader)];
    } else if s.lock != 0 {
      pre := [EstablishContext, DetectCard(o.reader), ConnectCard(o.reader), Lock];
    } else {
      pre := Opening(o);
    }
  }

  lemma OpenedTeardown(o: Options, env: Env) returns (pre: seq<Call>)
    requires SessionOpens(o, env.session)
    ensures Main(o, env).code != 3
    ensures NoRelease(pre) && Main(o, env).calls == pre + Teardown(Acquired(o, env.session, pre))
  {
    OpenedRun(o, env);
    var r := Operate(o, env);
    pre := Opening(o) + r.calls;
    OpeningAcquiresAll(o, env.session, r.calls);
    TeardownOfAll();
    OpeningReleasesNothing(o, r.calls);
  }

  /** With everything held, teardown unbinds, unlocks, disconnects and
      releases the context, in that order. */
  lemma TeardownOfAll()
    ensures Teardown(Held(true, true, true)) == [Unbind, Unlock, Disconnect, ReleaseContext]
  {
  }

  /** After the opening calls, context, card and binding are all held. */
  lemma OpeningAcquiresAll(o: Options, s: Session, x: seq<Call>)
    requires s.establish == 0 && s.connect == 0 && s.bind == 0
    ensures Acquired(o, s, Opening(o) + x) == Held(true, true, true)
  {
    var pre := Opening(o) + x;
    assert pre[0] == EstablishContext && pre[2] == ConnectCard(o.reader) && pre[4] == Bind;
  }

  /** The opening calls acquire and do not release. */
  lemma OpeningReleasesNothing(o: Options, x: seq<Call>)
    requires NoRelease(x)
    ensures NoRelease(Opening(o) + x)
  {
  }

  /** A reader index outside the configured readers ends the run with exit 1
      before any call touches a reader or a card. */
  lemma BadReaderTouchesNoCard(o: Options, env: Env)
    requires |o.actions| > 0 && env.session.establish == 0
    requires o.reader < 0 || o.reader >= env.session.readerCount
    ensures Main(o, env) == Step(1, [EstablishContext, ReleaseContext])
  {
  }

  /** Without a card in the reader the run ends with exit 3 and no teardown. */
  lemma AbsentCardSkipsTeardown(o: Options, env: Env)
    requires |o.actions| > 0 && env.session.establish == 0
    requires 0 <= o.reader < env.session.readerCount && env.session.presence != 1
    ensures Main(o, env) == Step(3, [EstablishContext, DetectCard(o.reader)])
  {
  }

  /** The card is unlocked and disconnected once connected, even when locking
      it failed. */
  lemma UnlockEvenWhenLockFailed(o: Options, env: Env)
    requires |o.actions| > 0 && env.session.establish == 0
    requires 0 <= o.reader < env.session.readerCount && env.session.presence == 1
    requires env.session.connect == 0 && env.session.lock != 0
    ensures Main(o, env) == Step(1, [EstablishContext, DetectCard(o.reader), ConnectCard(o.reader), Lock,
                                     Unlock, Disconnect, ReleaseContext])
  {
  }

  /** After a successful bind the run is the opening calls, the operation
      calls and the full teardown. */
  lemma OpenedRun(o: Options, env: Env)
    requires SessionOpens(o, env.session)
    ensures Main(o, env) == Step(Operate(o, env).code,
                                 Opening(o) + Operate(o, env).calls + [Unbind, Unlock, Disconnect, ReleaseContext])
  {
  }

  /** The three ways the operation part of a run can go. */
  lemma OperateSteps(o: Options, env: Env)
    ensures ResolveKey(o, env.card).Stop? ==>
      Operate(o, env) == Step(ResolveKey(o, env.card).exit, ResolveKey(o, env.card).calls)
    ensures ResolveKey(o, env.card).Proceed? ==>
      var r := ResolveKey(o, env.card);
      var a := Authenticate(r.value, o, env);
      (a.code != 0 ==> Operate(o, env) == Step(a.code, r.calls + a.calls))
      && (a.code == 0 ==>
            Operate(o, env) == Step(Dispatch(r.value, o, env).code, r.calls + a.calls + Dispatch(r.value, o, env).calls))
  {
    var r := ResolveKey(o, env.card);
    if r.Proceed? {
      OperateAfterResolution(o, env);
      AuthorizedSteps(r.value, o, env);
      var a := Authenticate(r.value, o, env);
      if a.code == 0 {
        AppendAssociates(r.calls, a.calls, Dispatch(r.value, o, env).calls);
      }
    }
  }

  /** A resolved key hands the rest of the work to the authorized part. */
  lemma OperateAfterResolution(o: Options, env: Env)
    requires ResolveKey(o, env.card).Proceed?
    ensures Operate(o, env)
            == Step(Authorized(ResolveKey(o, env.card).value, o, env).code,
                    ResolveKey(o, env.card).calls + Authorized(ResolveKey(o, env.card).value, o, env).calls)
  {
  }

  lemma AppendAssociates(x: seq<Call>, y: seq<Call>, z: seq<Call>)
    ensures x + (y + z) == x + y + z
  {
  }

  /** The work on a resolved key stops at a failed authentication and
      otherwise appends the operations' calls. */
  lemma AuthorizedSteps(key: KeyObject, o: Options, env: Env)
    ensures Authenticate(key, o, env).code != 0 ==> Authorized(key, o, env) == Authenticate(key, o, env)
    ensures Authenticate(key, o, env).code == 0 ==>
      Authorized(key, o, env)
      == Step(Dispatch(key, o, env).code, Authenticate(key, o, env).calls + Dispatch(key, o, env).calls)
  {
  }

  /** A key resolution that stops ends the operation part with its code,
      after the resolution calls only. */
  lemma OperateStopsAtResolution(o: Options, env: Env)
    requires ResolveKey(o, env.card).Stop?
    ensures Operate(o, env).code == (if env.card.listError.Some? || |env.card.keys| == 0 then 1 else 2)
    ensures forall c :: c in Operate(o, env).calls ==> c.ListKeys? || c.FindKey?
    ensures NoCrypto(Operate(o, env).calls) && NoPinCall(Operate(o, env).calls)
  {
    OperateSteps(o, env);
  }

  /** A failed or empty private-key enumeration ends the run with exit 1, an
      unknown --key id with exit 2; in both cases nothing is authenticated or
      computed. */
  lemma KeyResolutionFailures(o: Options, env: Env)
    requires SessionOpens(o, env.session)
    requires ResolveKey(o, env.card).Stop?
    ensures Main(o, env).code == (if env.card.listError.Some? || |env.card.keys| == 0 then 1 else 2)
    ensures NoCrypto(Main(o, env).calls)
    ensures NoPinCall(Main(o, env).calls)
  {
    OpenedRun(o, env);
    OperateStopsAtResolution(o, env);
    LiftNoCrypto(o, Operate(o, env).calls);
    LiftNoPinCall(o, Operate(o, env).calls);
  }

  /** No PIN lookup and no PIN verification among `calls`. */
  predicate NoPinCall(calls: seq<Call>) {
    forall c :: c in calls ==> !c.FindPin? && !c.VerifyPin?
  }

  /** A key without an authentication id is used without any PIN lookup or
      verification. */
  lemma NoAuthIdNoPin(o: Options, env: Env)
    requires SessionOpens(o, env.session)
    requires ResolveKey(o, env.card).Proceed? && |ResolveKey(o, env.card).value.authId| == 0
    ensures NoPinCall(Main(o, env).calls)
  {
    OpenedRun(o, env);
    OperateSteps(o, env);
    var r := ResolveKey(o, env.card);
    assert Authenticate(r.value, o, env) == Step(0, []);
    var d := Dispatch(r.value, o, env);
    assert NoPinCall(d.calls) by {
      forall c | c in d.calls ensures !c.FindPin? && !c.VerifyPin? {
        assert c.IsCrypto();
      }
    }
    assert NoPinCall(r.calls);
    assert Operate(o, env).calls == r.calls + [] + d.calls;
    assert NoPinCall(Operate(o, env).calls);
    LiftNoPinCall(o, Operate(o, env).calls);
  }

  /** A failed authentication ends the operation part with its code, after
      the key resolution and authentication calls only. */
  lemma OperateStopsAtAuthentication(o: Options, env: Env)
    requires ResolveKey(o, env.card).Proceed?
    requires Authenticate(ResolveKey(o, env.card).value, o, env).code != 0
    ensures Operate(o, env).code == Authenticate(ResolveKey(o, env.card).value, o, env).code
    ensures NoCrypto(Operate(o, env).calls)
  {
    OperateSteps(o, env);
    var r := ResolveKey(o, env.card);
    var a := Authenticate(r.value, o, env);
    LookupsAreNotCrypto(r.calls, a.calls);
  }

  /** A missing PIN object (exit 1), a cancelled prompt or a rejected PIN
      (exit 5) stop the run before any input is read or key used. */
  lemma FailedAuthenticationBlocksCrypto(o: Options, env: Env)
    requires SessionOpens(o, env.session)
    requires ResolveKey(o, env.card).Proceed?
    requires Authenticate(ResolveKey(o, env.card).value, o, env).code != 0
    ensures Main(o, env).code == Authenticate(ResolveKey(o, env.card).value, o, env).code
    ensures Main(o, env).code == 1 || Main(o, env).code == 5
    ensures NoCrypto(Main(o, env).calls)
  {
    OpenedRun(o, env);
    OperateStopsAtAuthentication(o, env);
    LiftNoCrypto(o, Operate(o, env).calls);
  }

  /** A run that does not get past the bind makes session calls only. */
  lemma UnopenedRunHasNoCrypto(o: Options, env: Env)
    requires !SessionOpens(o, env.session)
    ensures NoCrypto(Main(o, env).calls)
  {
    AbortedRun(o, env);
  }

  /** The session calls around the operation part are not crypto calls. */
  lemma LiftNoCrypto(o: Options, x: seq<Call>)
    requires NoCrypto(x)
    ensures NoCrypto(Opening(o) + x + [Unbind, Unlock, Disconnect, ReleaseContext])
  {
  }

  /** The session calls around the operation part are not PIN calls. */
  lemma LiftNoPinCall(o: Options, x: seq<Call>)
    requires NoPinCall(x)
    ensures NoPinCall(Opening(o) + x + [Unbind, Unlock, Disconnect, ReleaseContext])
  {
  }

  /** The crypto calls of a run that opened are those of its operation part. */
  lemma LiftCrypto(o: Options, x: seq<Call>)
    ensures forall v :: v in Opening(o) + x + [Unbind, Unlock, Disconnect, ReleaseContext] && v.IsCrypto() ==> v in x
    ensures forall v :: v in x ==> v in Opening(o) + x + [Unbind, Unlock, Disconnect, ReleaseContext]
  {
  }

  /** The operation part makes a crypto call only for a resolved key whose
      authentication succeeded, after the card accepted its PIN. */
  lemma OperateCryptoNeedsAuthentication(o: Options, env: Env)
    ensures !NoCrypto(Operate(o, env).calls) ==>
      ResolveKey(o, env.card).Proceed? && Authenticate(ResolveKey(o, env.card).value, o, env).code == 0
    ensures (ResolveKey(o, env.card).Proceed? && Authenticate(ResolveKey(o, env.card).value, o, env).code == 0
             && |ResolveKey(o, env.card).value.authId| > 0) ==>
      env.card.verify == 0 && exists c :: c in Operate(o, env).calls && c.VerifyPin?
  {
    OperateSteps(o, env);
    var r := ResolveKey(o, env.card);
    if r.Proceed? {
      var a := Authenticate(r.value, o, env);
      if a.code == 0 && |r.value.authId| > 0 {
        var v :| v in a.calls && v.VerifyPin?;
        assert v in Operate(o, env).calls;
      }
    }
  }

  /** Any crypto call (reading the input, using a key, writing a result)
      happens only in a fully opened session, with a resolved key whose PIN,
      if it has one, the card accepted. */
  lemma CryptoOnlyAfterAuthentication(o: Options, env: Env)
    ensures !NoCrypto(Main(o, env).calls) ==>
      && SessionOpens(o, env.session)
      && ResolveKey(o, env.card).Proceed?
      && Authenticate(ResolveKey(o, env.card).value, o, env).code == 0
      && (|ResolveKey(o, env.card).value.authId| > 0 ==>
            env.card.verify == 0 && exists c :: c in Main(o, env).calls && c.VerifyPin?)
  {
    if !SessionOpens(o, env.session) {
      UnopenedRunHasNoCrypto(o, env);
    } else {
      OpenedRun(o, env);
      OperateCryptoNeedsAuthentication(o, env);
      var x := Operate(o, env);
      LiftCrypto(o, x.calls);
      if exists c :: c in x.calls && c.VerifyPin? {
        var v :| v in x.calls && v.VerifyPin?;
        assert v in Main(o, env).calls;
      }
    }
  }

  /** A failed decipher ends the operation part with its code, and no
      signature is computed. */
  lemma OperateStopsAtDecipher(o: Options, env: Env)
    requires ResolveKey(o, env.card).Proceed?
    requires Authenticate(ResolveKey(o, env.card).value, o, env).code == 0
    requires DoDecipher(o) && Decipher(ResolveKey(o, env.card).value, o.request, env).code != 0
    ensures Operate(o, env).code == Decipher(ResolveKey(o, env.card).value, o.request, env).code
    ensures forall c :: c in Operate(o, env).calls && c.IsCrypto() ==>
      c in Decipher(ResolveKey(o, env.card).value, o.request, env).calls
  {
    OperateSteps(o, env);
    var r := ResolveKey(o, env.card);
    var a := Authenticate(r.value, o, env);
    var d := Decipher(r.value, o.request, env);
    assert Dispatch(r.value, o, env) == d;
    LookupsAreNotCrypto(r.calls, a.calls);
    CryptoCallsOfSuffix(r.calls + a.calls, d.calls);
  }

  /** Deciphering runs before signing, and a failed decipher skips signing:
      the run then carries no signature call and exits with the decipher's
      code. */
  lemma FailedDecipherSkipsSign(o: Options, env: Env)
    requires SessionOpens(o, env.session)
    requires ResolveKey(o, env.card).Proceed?
    requires Authenticate(ResolveKey(o, env.card).value, o, env).code == 0
    requires DoDecipher(o) && Decipher(ResolveKey(o, env.card).value, o.request, env).code != 0
    ensures Main(o, env).code == Decipher(ResolveKey(o, env.card).value, o.request, env).code
    ensures NoSignerCall(Main(o, env).calls)
    ensures forall c :: c in Main(o, env).calls ==> !c.ComputeSignature?
  {
    OpenedRun(o, env);
    OperateStopsAtDecipher(o, env);
    LiftCrypto(o, Operate(o, env).calls);
  }

  /** Without a sign or decipher action the operation part makes no crypto
      call, and a key that resolves and authenticates gives exit 0. */
  lemma OperateWithoutOperations(o: Options, env: Env)
    requires !DoSign(o) && !DoDecipher(o)
    ensures NoCrypto(Operate(o, env).calls)
    ensures (ResolveKey(o, env.card).Proceed? && Authenticate(ResolveKey(o, env.card).value, o, env).code == 0)
      ==> Operate(o, env).code == 0
  {
    OperateSteps(o, env);
    var r := ResolveKey(o, env.card);
    if r.Proceed? {
      assert Dispatch(r.value, o, env) == Step(0, []);
      var a := Authenticate(r.value, o, env);
      LookupsAreNotCrypto(r.calls, a.calls);
      assert r.calls + a.calls + [] == r.calls + a.calls;
    }
  }

  /** --key alone is an action: the session is opened, the key resolved and
      its PIN verified, but nothing is computed, and success exits 0. */
  lemma KeyOnlyRunsWithoutCrypto(o: Options, env: Env)
    requires |o.actions| > 0 && forall i :: 0 <= i < |o.actions| ==> o.actions[i].KeyAction?
    ensures Main(o, env).calls[0] == EstablishContext
    ensures NoCrypto(Main(o, env).calls)
    ensures (SessionOpens(o, env.session) && ResolveKey(o, env.card).Proceed?
             && Authenticate(ResolveKey(o, env.card).value, o, env).code == 0)
      ==> Main(o, env).code == 0
  {
    assert !DoSign(o) && !DoDecipher(o) by {
      assert forall i :: 0 <= i < |o.actions| ==> o.actions[i] != SignAction && o.actions[i] != DecipherAction;
    }
    if SessionOpens(o, env.session) {
      OpenedRun(o, env);
      OperateWithoutOperations(o, env);
      LiftNoCrypto(o, Operate(o, env).calls);
    } else {
      UnopenedRunHasNoCrypto(o, env);
    }
  }

  /** A native key signing: the signature written out is the card's answer,
      unmodified, and the run exits 0. */
  lemma NativeSignWritesCardSignature(o: Options, env: Env)
    requires SessionOpens(o, env.session)
    requires ResolveKey(o, env.card).Proceed? && ResolveKey(o, env.card).value.native
    requires Authenticate(ResolveKey(o, env.card).value, o, env).code == 0
    requires DoSign(o) && !DoDecipher(o) && o.request.input.Some? && o.request.output.Some?
    requires env.host.inputSize.Some? && env.card.signature >= 0
    requires NeedsExactInput(ResolveKey(o, env.card).value, o.request.flags) ==>
      ReadInputCount(env.host) == ResolveKey(o, env.card).value.modulusLength / 8
    ensures Main(o, env).code == 0
    ensures WriteOutput(env.card.signature as nat, WriteStatus(o.request.output, env.host)) in Main(o, env).calls
  {
    OpenedRun(o, env);
    var k := ResolveKey(o, env.card).value;
    var sg := Sign(k, o.request, env);
    assert sg.calls[|sg.calls| - 1] in sg.calls;
    assert Dispatch(k, o, env).calls == sg.calls;
  }

  /** A sign-only run with an RSA key on the extracted path and no hash flag
      exits 1 when the input the checks admit is neither 16 nor 20 bytes long,
      and no signer is called. */
  lemma UnhashedSoftwareSignExitsOne(o: Options, env: Env)
    requires SessionOpens(o, env.session)
    requires ResolveKey(o, env.card).Proceed?
    requires !ResolveKey(o, env.card).value.native && ResolveKey(o, env.card).value.keyType == RsaKey
    requires Authenticate(ResolveKey(o, env.card).value, o, env).code == 0
    requires DoSign(o) && !DoDecipher(o) && o.request.input.Some? && o.request.output.Some?
    requires !o.request.flags.md5 && !o.request.flags.sha1
    requires ReadInputCount(env.host) >= 0 && ReadInputCount(env.host) != 16 && ReadInputCount(env.host) != 20
    requires NeedsExactInput(ResolveKey(o, env.card).value, o.request.flags) ==>
      ReadInputCount(env.host) == ResolveKey(o, env.card).value.modulusLength / 8
    ensures Main(o, env).code == 1
    ensures NoSignerCall(Main(o, env).calls)
  {
    OpenedRun(o, env);
    OperateSteps(o, env);
    var r := ResolveKey(o, env.card);
    var a := Authenticate(r.value, o, env);
    var sg := Sign(r.value, o.request, env);
    UnhashedInputFailsSign(r.value, o.request, env);
    assert Dispatch(r.value, o, env) == sg;
    LookupsAreNotCrypto(r.calls, a.calls);
    NoSignerAround(o, r.calls + a.calls, sg.calls);
  }

  /** Key and PIN lookups are not crypto calls. */
  lemma LookupsAreNotCrypto(r: seq<Call>, a: seq<Call>)
    requires forall c :: c in r ==> c.ListKeys? || c.FindKey?
    requires forall c :: c in a ==> c.FindPin? || c.VerifyPin?
    ensures NoCrypto(r + a)
  {
  }

  /** After calls that are not crypto calls, every crypto call comes from the
      rest. */
  lemma CryptoCallsOfSuffix(pre: seq<Call>, rest: seq<Call>)
    requires NoCrypto(pre)
    ensures forall c :: c in pre + rest && c.IsCrypto() ==> c in rest
  {
  }

  /** No signer call is added by the session calls around the operation
      part, nor by the lookups before the operations. */
  lemma NoSignerAround(o: Options, pre: seq<Call>, rest: seq<Call>)
    requires NoCrypto(pre) && NoSignerCall(rest)
    ensures NoSignerCall(Opening(o) + (pre + rest) + [Unbind, Unlock, Disconnect, ReleaseContext])
  {
  }
}

=== FILE: pin.dfy ===
/**
 PIN acquisition (get_pin): a PIN given on the command line is used as it is;
 otherwise the user is prompted until they type a PIN whose length lies within
 the PIN object's bounds, or an empty line, which cancels.
 */
module Pin {
  import opened Card

  /** The PIN object's length bounds admit `code`. */
  predicate InRange(pin: PinObject, code: Bytes) {
    pin.minLength <= |code| <= pin.storedLength
  }

  /** An answer the prompt loop discards before asking again. */
  predicate Rejected(pin: PinObject, answer: Bytes) {
    |answer| > 0 && !InRange(pin, answer)
  }

  /** The interactive loop over the successive answers typed at the prompt. */
  function Prompt(pin: PinObject, answers: seq<Bytes>): (r: Option<Bytes>)
    ensures r.Some? ==> |r.value| > 0 && InRange(pin, r.value) && r.value in answers
    decreases |answers|
  {
    if |answers| == 0 || |answers[0]| == 0 then None
    else if !InRange(pin, answers[0]) then Prompt(pin, answers[1..])
    else Some(answers[0])
  }

  /** The PIN to verify, or None when the user cancelled. */
  function GetPin(pin: PinObject, supplied: Option<Bytes>, answers: seq<Bytes>): (r: Option<Bytes>)
    ensures supplied.Some? ==> r == supplied
    ensures supplied.None? ==> r == Prompt(pin, answers)
    ensures supplied.None? && r.Some? ==> |r.value| > 0 && InRange(pin, r.value)
  {
    if supplied.Some? then supplied else Prompt(pin, answers)
  }

  /** The first answer that is in range is the PIN, provided every answer
      before it was rejected. */
  lemma {:induction false} PromptTakesFirstInRange(pin: PinObject, answers: seq<Bytes>, i: nat)
    requires i < |answers|
    requires forall j :: 0 <= j < i ==> Rejected(pin, answers[j])
    requires |answers[i]| > 0 && InRange(pin, answers[i])
    ensures Prompt(pin, answers) == Some(answers[i])
  {
    if i > 0 {
      assert Rejected(pin, answers[0]);
      forall j | 0 <= j < i - 1 ensures Rejected(pin, answers[1..][j]) {
        assert answers[1..][j] == answers[j + 1];
      }
      PromptTakesFirstInRange(pin, answers[1..], i - 1);
    }
  }

  /** An empty answer, or the end of input, after rejected answers only cancels. */
  lemma {:induction false} PromptCancelsOnEmpty(pin: PinObject, answers: seq<Bytes>, i: nat)
    requires i <= |answers|
    requires forall j :: 0 <= j < i ==> Rejected(pin, answers[j])
    requires i == |answers| || |answers[i]| == 0
    ensures Prompt(pin, answers) == None
  {
    if i > 0 {
      assert Rejected(pin, answers[0]);
      forall j | 0 <= j < i - 1 ensures Rejected(pin, answers[1..][j]) {
        assert answers[1..][j] == answers[j + 1];
      }
      PromptCancelsOnEmpty(pin, answers[1..], i - 1);
    }
  }

  /** A PIN the loop returns is an answer preceded by rejected answers only:
      no out-of-range answer is ever returned, and none is skipped over. */
  lemma {:induction false} PromptReturnsAfterRejections(pin: PinObject, answers: seq<Bytes>)
    ensures Prompt(pin, answers).Some? ==>
      exists i :: 0 <= i < |answers| && answers[i] == Prompt(pin, answers).value
        && forall j :: 0 <= j < i ==> Rejected(pin, answers[j])
  {
    if |answers| > 0 && |answers[0]| > 0 && !InRange(pin, answers[0]) {
      var rest := answers[1..];
      PromptReturnsAfterRejections(pin, rest);
      if Prompt(pin, rest).Some? {
        var k :| 0 <= k < |rest| && rest[k] == Prompt(pin, rest).value
          && forall j :: 0 <= j < k ==> Rejected(pin, rest[j]);
        forall j | 0 <= j < k + 1 ensures Rejected(pin, answers[j]) {
          if j > 0 { assert answers[j] == rest[j - 1]; }
        }
        assert answers[k + 1] == rest[k];
      }
    } else if |answers| > 0 && |answers[0]| > 0 {
      assert answers[0] == Prompt(pin, answers).value;
    }
  }

  /** Without a PIN on the command line, get_pin returns the first answer that
      is in range, provided every answer before it was rejected. */
  lemma GetPinTakesFirstInRange(pin: PinObject, answers: seq<Bytes>, i: nat)
    requires i < |answers|
    requires forall j :: 0 <= j < i ==> Rejected(pin, answers[j])
    requires |answers[i]| > 0 && InRange(pin, answers[i])
    ensures GetPin(pin, None, answers) == Some(answers[i])
  {
    PromptTakesFirstInRange(pin, answers, i);
  }

  /** Without a PIN on the command line, get_pin gives up (the tool exits 5)
      on an empty answer, or the end of input, after rejected answers only. */
  lemma GetPinCancelsOnEmpty(pin: PinObject, answers: seq<Bytes>, i: nat)
    requires i <= |answers|
    requires forall j :: 0 <= j < i ==> Rejected(pin, answers[j])
    requires i == |answers| || |answers[i]| == 0
    ensures GetPin(pin, None, answers) == None
  {
    PromptCancelsOnEmpty(pin, answers, i);
  }
}

=== FILE: pipeline.dfy ===
/**
 The tool's main pipeline: open a session on the card (context, reader check,
 presence, connect, lock, PKCS #15 bind), resolve the private key, verify the
 PIN guarding it, run the requested operations (decipher first, then sign), and
 release what was acquired.
 */
module Pipeline {
  import opened Card
  import opened Pin
  import opened Crypt

  /** Exit status of a command line that requests no action. */
  const UsageExit: int := 2

  /** The options that count as actions, in command-line order. */
  datatype Action = SignAction | DecipherAction | KeyAction(id: Id)

  /** A parsed command line: its actions, the reader index, the PIN given on
      the command line if any, and what the operations read. */
  datatype Options = Options(actions: seq<Action>, reader: int, pin: Option<Bytes>, request: Request)

  predicate DoSign(o: Options) {
    SignAction in o.actions
  }

  predicate DoDecipher(o: Options) {
    DecipherAction in o.actions
  }

  /** The position of the last --key among the actions, or -1 when there is
      none. Each --key overwrites the id selected before it. */
  function LastKeyIndex(actions: seq<Action>): (i: int)
    ensures -1 <= i < |actions|
    ensures i == -1 <==> forall j :: 0 <= j < |actions| ==> !actions[j].KeyAction?
    ensures i >= 0 ==> actions[i].KeyAction? && forall j :: i < j < |actions| ==> !actions[j].KeyAction?
  {
    if |actions| == 0 then -1
    else if actions[|actions| - 1].KeyAction? then |actions| - 1
    else LastKeyIndex(actions[..|actions| - 1])
  }

  /** The key id selected with --key: the last one given. */
  function KeyId(actions: seq<Action>): (r: Option<Id>)
    ensures r.None? <==> forall i :: 0 <= i < |actions| ==> !actions[i].KeyAction?
    ensures r.Some? ==>
      exists i :: 0 <= i < |actions| && actions[i] == KeyAction(r.value)
                  && forall j :: i < j < |actions| ==> !actions[j].KeyAction?
  {
    var i := LastKeyIndex(actions);
    if i < 0 then None
    else
      assert actions[i] == KeyAction(actions[i].id);
      Some(actions[i].id)
  }

  /** The session resources held when the pipeline ends. */
  datatype Held = Held(context: bool, card: bool, bound: bool)

  /** The release calls for what is held: unbind, then unlock and disconnect,
      then release the context. */
  function Teardown(h: Held): (calls: seq<Call>)
    ensures forall c :: c in calls ==> c.IsRelease()
  {
    (if h.bound then [Unbind] else [])
    + (if h.card then [Unlock, Disconnect] else [])
    + (if h.context then [ReleaseContext] else [])
  }

  /** What `calls` acquired, given the session answers: a resource counts as
      held when its acquiring call was made and succeeded. */
  function Acquired(o: Options, s: Session, calls: seq<Call>): Held {
    Held(EstablishContext in calls && s.establish == 0,
         ConnectCard(o.reader) in calls && s.connect == 0,
         Bind in calls && s.bind == 0)
  }

  /** A pipeline stage either yields a value and goes on, or stops with an exit
      code. */
  datatype Stage<T> = Proceed(value: T, calls: seq<Call>) | Stop(exit: int, calls: seq<Call>)

  /** The private keys the enumeration returns: the first ones, up to the
      enumeration bound. */
  function Enumerate(card: Contents): (objs: seq<KeyObject>)
    ensures |objs| <= MaxKeys
    ensures |objs| == 0 <==> |card.keys| == 0
    ensures objs <= card.keys
    ensures |objs| < MaxKeys ==> objs == card.keys
  {
    if |card.keys| <= MaxKeys then card.keys else card.keys[..MaxKeys]
  }

  /** Key resolution: enumerate the private keys, then take the one --key
      names or, without --key, the first enumerated one. */
  function ResolveKey(o: Options, card: Contents): (x: Stage<KeyObject>)
    ensures forall c :: c in x.calls ==> c.ListKeys? || c.FindKey?
    ensures card.listError.Some? || |card.keys| == 0 ==> x == Stop(1, [ListKeys])
    ensures card.listError.None? && |card.keys| > 0 && KeyId(o.actions).None? ==>
      x == Proceed(card.keys[0], [ListKeys])
    ensures card.listError.None? && |card.keys| > 0 && KeyId(o.actions).Some? ==>
      (x.Stop? <==> forall i :: 0 <= i < |card.keys| ==> card.keys[i].id != KeyId(o.actions).value)
      && (x.Stop? ==> x.exit == 2)
      && (x.Proceed? ==> x.value in card.keys && x.value.id == KeyId(o.actions).value)
      && x.calls == [ListKeys, FindKey(KeyId(o.actions).value)]
    ensures x.Stop? ==> x.exit == 1 || x.exit == 2
  {
    var objs := Enumerate(card);
    if card.listError.Some? || |objs| == 0 then Stop(1, [ListKeys])
    else match KeyId(o.actions)
      case None => Proceed(objs[0], [ListKeys])
      case Some(id) =>
        match FindKeyById(card.keys, id)
        case None => Stop(2, [ListKeys, FindKey(id)])
        case Some(k) => Proceed(k, [ListKeys, FindKey(id)])
  }

  /** PIN verification for `key`: nothing when the key names no PIN;
      otherwise find its PIN object, obtain a PIN and have the card verify it.
      Code 0 lets the pipeline go on. */
  function Authenticate(key: KeyObject, o: Options, env: Env): (x: Step)
    ensures x.code == 0 || x.code == 1 || x.code == 5
    ensures forall c :: c in x.calls ==> c.FindPin? || c.VerifyPin?
    ensures |key.authId| == 0 ==> x == Step(0, [])
    ensures |key.authId| > 0 ==> |x.calls| >= 1 && x.calls[0] == FindPin(key.authId)
    ensures |key.authId| > 0 && FindPinByAuthId(env.card.pins, key.authId).None? ==>
      x == Step(1, [FindPin(key.authId)])
    ensures (|key.authId| > 0 && FindPinByAuthId(env.card.pins, key.authId).Some?
             && GetPin(FindPinByAuthId(env.card.pins, key.authId).value, o.pin, env.host.answers).None?)
      ==> x == Step(5, [FindPin(key.authId)])
    ensures (|key.authId| > 0 && FindPinByAuthId(env.card.pins, key.authId).Some?
             && GetPin(FindPinByAuthId(env.card.pins, key.authId).value, o.pin, env.host.answers).Some?)
      ==> x.calls == [FindPin(key.authId),
                      VerifyPin(GetPin(FindPinByAuthId(env.card.pins, key.authId).value, o.pin, env.host.answers).value)]
          && x.code == (if env.card.verify != 0 then 5 else 0)
    ensures forall c :: c in x.calls && c.VerifyPin? ==>
      o.pin == Some(c.code)
      || (o.pin.None? && exists p :: p in env.card.pins && p.authId == key.authId && InRange(p, c.code))
    ensures x.code == 0 && |key.authId| > 0 ==>
      env.card.verify == 0 && exists c :: c in x.calls && c.VerifyPin?
    ensures x.code == 5 ==>
      env.card.verify != 0 || (o.pin.None? && forall c :: c in x.calls ==> !c.VerifyPin?)
  {
    if |key.authId| == 0 then Step(0, [])
    else match FindPinByAuthId(env.card.pins, key.authId)
      case None => Step(1, [FindPin(key.authId)])
      case Some(pin) =>
        match GetPin(pin, o.pin, env.host.answers)
        case None => Step(5, [FindPin(key.authId)])
        case Some(code) =>
          assert VerifyPin(code) in [FindPin(key.authId), VerifyPin(code)];
          Step(if env.card.verify != 0 then 5 else 0, [FindPin(key.authId), VerifyPin(code)])
  }

  /** The requested operations: decipher first and, only if it succeeded,
      sign. */
  function Dispatch(key: KeyObject, o: Options, env: Env): (x: Step)
    ensures x.code == 0 || x.code == 1 || x.code == 2
    ensures forall c :: c in x.calls ==> c.IsCrypto()
    ensures !DoDecipher(o) && !DoSign(o) ==> x == Step(0, [])
    ensures DoDecipher(o) ==> Decipher(key, o.request, env).calls <= x.calls
    ensures DoDecipher(o) && Decipher(key, o.request, env).code != 0 ==> x == Decipher(key, o.request, env)
    ensures DoSign(o) && (!DoDecipher(o) || Decipher(key, o.request, env).code == 0) ==>
      x.code == Sign(key, o.request, env).code
    ensures DoDecipher(o) && !DoSign(o) ==> x == Decipher(key, o.request, env)
    ensures DoSign(o) && !DoDecipher(o) ==> x == Sign(key, o.request, env)
    ensures DoSign(o) && DoDecipher(o) && Decipher(key, o.request, env).code == 0 ==>
      x.calls == Decipher(key, o.request, env).calls + Sign(key, o.request, env).calls
  {
    var d := if DoDecipher(o) then Decipher(key, o.request, env) else Step(0, []);
    if d.code != 0 then d
    else
      var s := if DoSign(o) then Sign(key, o.request, env) else Step(0, []);
      Step(s.code, d.calls + s.calls)
  }

  /** The work on a resolved key: authenticate, then dispatch. */
  function Authorized(key: KeyObject, o: Options, env: Env): (x: Step)
    ensures x.code in {0, 1, 2, 5}
    ensures NoRelease(x.calls)
  {
    var a := Authenticate(key, o, env);
    if a.code != 0 then a
    else
      var d := Dispatch(key, o, env);
      assert NoRelease(a.calls) && NoRelease(d.calls);
      Step(d.code, a.calls + d.calls)
  }

  /** Everything after a successful bind: resolve, authenticate, dispatch. */
  function Operate(o: Options, env: Env): (x: Step)
    ensures x.code in {0, 1, 2, 5}
    ensures NoRelease(x.calls)
    ensures |x.calls| >= 1 && x.calls[0] == ListKeys
  {
    match ResolveKey(o, env.card)
    case Stop(e, c) => Step(e, c)
    case Proceed(key, c) =>
      var w := Authorized(key, o, env);
      Step(w.code, c + w.calls)
  }

  /** Every session call succeeds for a command line with at least one action
      and a valid reader index. */
  predicate SessionOpens(o: Options, s: Session) {
    && |o.actions| > 0
    && s.establish == 0
    && 0 <= o.reader < s.readerCount
    && s.presence == 1
    && s.connect == 0
    && s.lock == 0
    && s.bind == 0
  }

  /** The calls that open a session, up to the bind. */
  function Opening(o: Options): seq<Call> {
    [EstablishContext, DetectCard(o.reader), ConnectCard(o.reader), Lock, Bind]
  }

  /** How opening the session ends: opened, or aborted with an exit code and
      every call made, the release calls included. */
  datatype Opened = Opened | Aborted(exit: int, calls: seq<Call>)

  /** The session part of the tool: usage check, context, reader index, card
      presence, connect, lock and bind, with the release of whatever was
      acquired when a step fails. A missing card returns at once, without
      releasing anything. */
  function OpenSession(o: Options, s: Session): (x: Opened)
    ensures x.Opened? <==> SessionOpens(o, s)
    ensures x.Aborted? ==> x.exit in {1, 2, 3} && NoCrypto(x.calls)
    ensures |o.actions| > 0 && s.establish != 0 ==> x == Aborted(1, [EstablishContext])
    ensures x.Aborted? && |o.actions| > 0 ==> |x.calls| >= 1 && x.calls[0] == EstablishContext
  {
    var connected := [EstablishContext, DetectCard(o.reader), ConnectCard(o.reader)];
    if |o.actions| == 0 then Aborted(UsageExit, [])
    else if s.establish != 0 then Aborted(1, [EstablishContext])
    else if o.reader >= s.readerCount || o.reader < 0 then
      Aborted(1, [EstablishContext] + Teardown(Held(true, false, false)))
    else if s.presence != 1 then Aborted(3, [EstablishContext, DetectCard(o.reader)])
    else if s.connect != 0 then Aborted(1, connected + Teardown(Held(true, false, false)))
    else if s.lock != 0 then Aborted(1, connected + [Lock] + Teardown(Held(true, true, false)))
    else if s.bind != 0 then Aborted(1, Opening(o) + Teardown(Held(true, true, false)))
    else Opened
  }

  /** The tool from start to exit: its exit code and every collaborator call
      it made. */
  function Main(o: Options, env: Env): (x: Step)
    ensures x.code in {0, 1, 2, 3, 5}
    ensures |o.actions| == 0 ==> x == Step(UsageExit, [])
    ensures |o.actions| > 0 ==> |x.calls| >= 1 && x.calls[0] == EstablishContext
  {
    match OpenSession(o, env.session)
    case Aborted(e, calls) => Step(e, calls)
    case Opened =>
      var r := Operate(o, env);
      Step(r.code, Opening(o) + r.calls + Teardown(Held(true, true, true)))
  }
}
